=== FILE: README.md ===
# Fisheye gallery: a Dafny model of its stateful core

Fisheye is a browser photo gallery. A photographer's page lists their media, sorted by popularity, date or title. Each card has a like button, and the like is remembered in the browser's key-value store. Clicking a card opens a lightbox with previous/next navigation. A contact modal validates its form.

Most of the code builds DOM. This project models the five pieces of it that are logic, as immutable datatypes and pure functions:

- **Lightbox state machine** (`lightbox.dfy`):
  - the gesture guard on opening;
  - the index lookup, including its -1 quirk;
  - clamped previous/next;
  - nav-button enabledness;
  - key dispatch and the Tab focus trap (`focus_trap.dfy`).
- **Liked-set store and per-card like counter** (`like_store.dfy`, `media_card.dfy`):
  - the persisted list of liked ids, with its idempotent append;
  - the displayed count;
  - the like click;
  - the trusted-event rule for opening the lightbox from a card;
  - the asset path and photographer folder mapping (`catalog.dfy`).
- **Gallery selection, filter and sort** (`photographer_page.dfy`, `ordering.dfy`):
  - photographer lookup and media filter;
  - the three comparators, modelled with a stable insertion sort;
  - which list the lightbox receives.
- **Total-likes aggregate and price badge** (`page_template.dfy`).
- **Contact-form validator and modal keys** (`contact_form.dfy`):
  - JavaScript `trim` and its white-space set, plus UTF-16 length (`text.dfy`);
  - the email pattern, decided by a one-pass matcher;
  - the ordered rule chain and whole-form validation.

`wrappers.dfy` holds `Option` and `Result`.

Browser inputs become parameters:

- the clock is `now`;
- the event's `isTrusted` flag is `trusted`;
- the store entry is `Option<seq<int>>`, where `None` means the key is absent;
- the id read from the address is an `Option<int>`;
- the focused element is its position among the focusable elements.

## Behaviour that may surprise

- **Gesture window.** The window is strict: a gesture exactly 2000 ms old no longer opens the lightbox (`Lightbox.GestureWindowIsStrict`).
- **Opening an absent id.** The state is not left unchanged: the index is overwritten with -1 before the early return. On a lightbox that is already shown, this breaks the index invariant (`Lightbox.OpenMissingWhileShown`).
- **Corrupt liked-list storage.** The stored list is parsed without a guard, so corrupt content throws rather than reading as "nothing liked". Only "absent key reads as `[]`" is modelled.
- **Lightbox list on first render.** The lightbox gets the list in catalog order, while the grid is sorted by popularity (see Findings).
- **Re-sort while the lightbox is shown.** The lightbox receives the new order, but its index is not remapped and the displayed media is not reloaded, so the caption can belong to another media than the one at the index (`Lightbox.ResortWhileShownGoesStale`).

## Model

| member | source | states |
|---|---|---|
| Lightbox.RecordGesture | scripts/utils/lightbox.js:8-21 | every click, keydown or touchstart replaces the remembered gesture with (time, trusted) and touches nothing else |
| Lightbox.RecentGesture | scripts/utils/lightbox.js:45-53 | a gesture opens the lightbox only when trusted and less than 2000 ms old, and every trusted gesture at most 1999 ms old does |
| Lightbox.GestureWindowIsStrict | scripts/utils/lightbox.js:45-53 | a trusted gesture still opens 1999 ms later but not at 2000 ms, and an untrusted one never does |
| Lightbox.ElementFor | scripts/utils/lightbox.js:153-167 | the viewer builds a picture exactly when the media has an image, else a video when it has one, each with the asset path of its file; the picture's alt text is the title |
| Lightbox.Initialize | scripts/utils/lightbox.js:24-27 | handing a list over replaces the media list only |
| Lightbox.FindIndex | scripts/utils/lightbox.js:61-63 | the result is the first position holding the id, or -1 exactly when no position does |
| Lightbox.Open | scripts/utils/lightbox.js:30-68 | unforced, without a trusted gesture strictly younger than 2000 ms, nothing changes; otherwise the index becomes the first match; an absent id changes only the index, to -1, and leaves the shown flag as it was; a present id shows the lightbox displaying that media's element and title, with previous disabled exactly at the first position and next exactly at the last |
| Lightbox.Load | scripts/utils/lightbox.js:126-183 | an index outside the list changes nothing; otherwise the viewer displays that media's image or video element (from its asset path) and its title, and prev/next are disabled exactly at the first/last position of the current index |
| Lightbox.Close | scripts/utils/lightbox.js:103-123 | closing hides the lightbox and keeps list and index |
| Lightbox.BackdropClick | scripts/utils/lightbox.js:268-273 | a click on the backdrop itself closes, any other click leaves the state unchanged |
| Lightbox.Prev | scripts/utils/lightbox.js:210-215 | moves back by one exactly when the index is positive, displaying the element and title of the media now at the index, with previous disabled exactly at the first position and next exactly at the last; otherwise the state is unchanged; an in-range index stays in range |
| Lightbox.Next | scripts/utils/lightbox.js:218-223 | moves forward by one exactly when the index is before the last, displaying the element and title of the media now at the index, with previous disabled exactly at the first position and next exactly at the last; otherwise the state is unchanged; an in-range index stays in range |
| Lightbox.KeyDown | scripts/utils/lightbox.js:226-265 | Escape closes, ArrowLeft/ArrowRight are previous/next, and none of the three moves focus; Tab only moves focus through the trap; any other key does nothing |
| Lightbox.NavButtonsMatchMoves | scripts/utils/lightbox.js:186-223 | a nav button is disabled exactly when pressing it would leave the state unchanged |
| Lightbox.NextThenPrev | scripts/utils/lightbox.js:210-223 | next then previous returns to the same state |
| Lightbox.TransitionsKeepValid | scripts/utils/lightbox.js:30-123 | open (except an absent id while shown), previous, next, close, gesture and key transitions keep an open lightbox inside its list, displaying its index with that media's caption |
| Lightbox.ReinitializeKeepsValid | scripts/utils/lightbox.js:24-27 | replacing the list with one of the same length keeps the invariant exactly when the lightbox is hidden or the media now at its index has the displayed caption |
| Lightbox.ResortWhileShownGoesStale | scripts/pages/photographer.js:207-211 | handing a reordered list to a shown lightbox leaves the old caption on screen, which breaks the invariant |
| Lightbox.OpenMissingWhileShown | scripts/utils/lightbox.js:61-68 | opening an absent id on a shown lightbox leaves it shown with index -1, which breaks the invariant |
| FocusTrap.OnTab | scripts/utils/lightbox.js:247-263 | focus is moved only for Shift+Tab on the first or Tab on the last focusable element, to the last or first respectively |
| FocusTrap.FocusAfterTab | scripts/utils/contactForm.js:69-86 | in the contact modal, with the browser's own order in between, focus cycles through the focusable elements: Tab goes to the next one modulo their count, Shift+Tab to the previous one |
| LikeStore.Read | scripts/factories/media.js:9-14 | an absent key reads as the empty list, a present one as its stored list |
| LikeStore.IsLiked | scripts/factories/media.js:9-14 | a media is liked exactly when its id is in the stored list; with the key absent nothing is liked |
| LikeStore.MarkLiked | scripts/factories/media.js:17-25 | afterwards the id is liked and the liked set gains exactly that id; an already-liked id leaves the store untouched, a new one is appended; no duplicate is ever created |
| LikeStore.MarkLikedIdempotent | scripts/factories/media.js:17-25 | marking twice is marking once |
| LikeStore.MarkAll | scripts/factories/media.js:17-25 | after marking a sequence of ids, exactly those ids and the earlier ones are liked |
| LikeStore.MarkingNeverDuplicates | scripts/factories/media.js:17-25 | any sequence of marks from an empty store yields a duplicate-free list |
| LikeStore.ResetAll | scripts/factories/media.js:28-35 | after removing the key no id is liked |
| Catalog.FolderName | scripts/factories/media.js:38-49 | a mapped photographer name gives its short folder, any other name is its own folder |
| Catalog.AssetPath | scripts/factories/media.js:54-56 | the path starts with the assets root and ends with the file name |
| MediaCard.MediaPath | scripts/factories/media.js:54-56 | the card path uses the image when there is one, else the video |
| MediaCard.LightboxShowsCardFile | scripts/utils/lightbox.js:153-167 | the lightbox element's source is the same path as the card's |
| MediaCard.DisplayedLikes | scripts/factories/media.js:118-133 | the count shown is the baseline plus one exactly when the id is liked |
| MediaCard.Render | scripts/factories/media.js:116-136 | a rendered card is consistent with the store |
| MediaCard.LikeClick | scripts/factories/media.js:153-192 | a click on a liked id changes nothing; otherwise the count goes up by one and the id is recorded; consistency with the store is kept |
| MediaCard.LikeTwiceIsLikeOnce | scripts/factories/media.js:156-174 | two clicks raise the count by exactly one over the baseline |
| MediaCard.LikeKeepsOthersConsistent | scripts/factories/media.js:162-166 | liking one card keeps every other card consistent with the store |
| MediaCard.CardClick | scripts/factories/media.js:230-245 | the gesture is recorded; an unforced open happens exactly for a trusted click outside the like button |
| MediaCard.CardKey | scripts/factories/media.js:213-228 | the gesture is recorded; an unforced open happens exactly for a trusted Enter |
| MediaCard.TrustedClickOpens | scripts/factories/media.js:230-245 | a trusted click on a listed card always opens the lightbox on that card |
| Text.Compare | scripts/pages/photographer.js:153 | the title comparison answers 0 exactly for equal titles |
| Text.CompareFlip | scripts/pages/photographer.js:189 | swapping the titles negates the comparison |
| Text.CompareTransitive | scripts/pages/photographer.js:189 | the title order is transitive |
| Ordering.ParseSortKey | scripts/pages/photographer.js:183-198 | "date" and "title" select their orders, every other value selects popularity |
| Ordering.Compare | scripts/pages/photographer.js:183-198 | popularity puts more likes first and equal likes by title, ranking equal only the same likes and title; date puts newer first; title follows the title order; each answers 0 exactly for equal keys |
| Ordering.PopularityMeaning | scripts/pages/photographer.js:149-154 | popularity ranks more likes first, and equal likes by title |
| Ordering.DateMeaning | scripts/pages/photographer.js:184-187 | the date order ranks newer first |
| Ordering.CompareFlip | scripts/pages/photographer.js:183-198 | every comparator is antisymmetric |
| Ordering.LeTotal | scripts/pages/photographer.js:183-198 | any two media are comparable |
| Ordering.LeTransitive | scripts/pages/photographer.js:183-198 | ranking is transitive |
| Ordering.TiedIffBothLe | scripts/pages/photographer.js:183-198 | a comparator answers 0 exactly when each ranks at or before the other |
| Ordering.Insert | scripts/pages/photographer.js:182-198 | inserting into a sorted list keeps it sorted and adds exactly that media |
| Ordering.Sort | scripts/pages/photographer.js:182-198 | the result is ordered by the comparator and a permutation of the copy |
| Ordering.InsertTies | scripts/pages/photographer.js:182-198 | insertion places a media in front of every media it ties with, which keeps tied media in input order in the sort |
| Ordering.SortIsStable | scripts/pages/photographer.js:182-198 | media that tie keep their input order, so the sorted result is fully determined |
| Ordering.SortKeepsUniqueIds | scripts/pages/photographer.js:182 | sorting a list with unique ids keeps the ids unique |
| Ordering.PopularityExample | scripts/pages/photographer.js:149-154 | a concrete gallery sorts by likes descending, then title |
| PhotographerPage.FindPhotographer | scripts/pages/photographer.js:32-35 | the result is the first photographer with the id, or none exactly when no photographer has it |
| PhotographerPage.MediaOf | scripts/pages/photographer.js:38-49 | every selected media belongs to the photographer |
| PhotographerPage.MediaOfMembers | scripts/pages/photographer.js:38-49 | a media is selected exactly when it is in the catalog and belongs to the photographer |
| PhotographerPage.MediaOfAppend | scripts/pages/photographer.js:38-49 | the filter keeps catalog order: filtering two halves and joining equals filtering the whole |
| PhotographerPage.Select | scripts/pages/photographer.js:230-257 | a missing or zero id is "not specified", an unknown id is "not found", otherwise the first photographer with the id, as the lookup returns it, and exactly their media |
| PhotographerPage.DisplayMedia | scripts/pages/photographer.js:119-170 | first render keeps a copy, sorts the grid by popularity, and hands the unsorted copy to the lightbox |
| PhotographerPage.FirstRenderNextDisabledMidGrid | scripts/pages/photographer.js:127-154 | with two cards, a trusted click on the grid's first card opens it with next disabled |
| PhotographerPage.DisplayMediaAligned | scripts/pages/photographer.js:207-211 | first render with the lightbox given the grid's own order |
| PhotographerPage.AlignedNextFollowsGrid | scripts/pages/photographer.js:207-211 | with aligned lists, opening grid card k and pressing next shows grid card k+1 |
| PhotographerPage.RenderSorted | scripts/pages/photographer.js:173-223 | a re-sort rebuilds the grid as a sorted permutation of the unchanged copy and hands the same order to the lightbox; an empty page keeps its lightbox |
| PhotographerPage.ResortKeepsLightboxIndex | scripts/pages/photographer.js:207-211 | a re-sort keeps a shown lightbox's index inside the new list, with the shown flag, index and displayed frame unchanged |
| PageTemplate.TotalLikes | scripts/templates/photographerPage.js:100-107 | one card contributes its `data-likes`, or 0 without the attribute; the total of non-negative counts is non-negative |
| PageTemplate.TotalLikesAppend | scripts/templates/photographerPage.js:104-107 | the total is additive over the card list, so with the one-card value it is the sum of every card's count |
| PageTemplate.TotalLikesBump | scripts/templates/photographerPage.js:104-107 | raising one card's count by d raises the total by d |
| PageTemplate.LikeRaisesTotalByOne | scripts/templates/photographerPage.js:100-107 | a like click raises the page total by one for a new like and by zero otherwise |
| PageTemplate.GetPriceBadge | scripts/templates/photographerPage.js:62-98 | an existing badge is reused; otherwise a new one shows the price and holds a `#total-likes` element with a count of 0 and the initial label |
| PageTemplate.InstallPriceBadge | scripts/pages/photographer.js:85-90 | the badge is installed only when the page has none, and a page without one then has a `#total-likes` element |
| PageTemplate.UpdateTotalLikes | scripts/templates/photographerPage.js:100-127 | the returned total is the card sum. With a `#total-likes` element, the total goes into its `.total-count` child if it has one and into its label in any case, and the fallback counter is untouched. Without one, the total goes into the fallback counter if there is one |
| PageTemplate.InstalledBadgeShowsTotal | scripts/templates/photographerPage.js:115-126 | after installing a badge, an update shows the page total on it |
| PageTemplate.TallyWithoutCountHidesTotal | scripts/templates/photographerPage.js:111-121 | a `#total-likes` element without a `.total-count` child means no counter shows the new total: the fallback keeps its old value |
| Text.Trim | scripts/utils/contactForm.js:199 | the trimmed value is the unique window outside which every character is white space and whose ends are not; it is empty exactly when the value is all white space |
| Text.TrimmedEndsAreContent | scripts/utils/contactForm.js:199 | a non-empty trimmed value starts and ends with a non-space character |
| Text.TrimWindowUnique | scripts/utils/contactForm.js:199 | any window with white space all around and non-space ends is the trimmed value |
| Text.TrimIgnoresPadding | scripts/utils/contactForm.js:199 | white space around a value does not change its trimmed value |
| Text.Utf16Length | scripts/utils/contactForm.js:218 | one character counts two code units when above U+FFFF and one otherwise; the length equals the character count exactly when no character is above U+FFFF, and lies between the count and twice it |
| Text.Utf16LengthAppend | scripts/utils/contactForm.js:218 | the code-unit length adds up over concatenation, so with the one-character values it is the full count |
| ContactForm.EmailShape | scripts/utils/contactForm.js:211 | the language of the email pattern: a local part, one '@', a domain with an inner '.', no white space or other '@'; its shortest words have five characters and start and end with an allowed character |
| ContactForm.MatchEmail | scripts/utils/contactForm.js:211-212 | the one-pass matcher accepts exactly the language of the email pattern |
| ContactForm.ValidateField | scripts/utils/contactForm.js:198-227 | on the trimmed value, "required" fires exactly for an empty required field, "email" exactly for a non-empty email field not of email shape, "length" exactly for any other non-empty value of one code unit; an empty optional field is valid |
| ContactForm.PaddingDoesNotMatter | scripts/utils/contactForm.js:199 | white space around a value never changes its verdict |
| ContactForm.AcceptedEmailHasOneAt | scripts/utils/contactForm.js:210-215 | an accepted email has exactly one '@' and no white space |
| ContactForm.AstralCharacterPassesLength | scripts/utils/contactForm.js:218-221 | a single character outside the Basic Multilingual Plane already has length two and passes |
| ContactForm.ValidateForm | scripts/utils/contactForm.js:185-196 | every field gets its own verdict, with no early exit, and the form is valid exactly when every field is |
| ContactForm.CloseModal | scripts/utils/contactForm.js:35-58 | closing hides the modal and resets every field value to empty |
| ContactForm.ClosedFormStartsOver | scripts/utils/contactForm.js:54-55 | after closing, every required field is reported empty and every optional one is valid |
| ContactForm.ModalKeyDown | scripts/utils/contactForm.js:61-87 | Escape closes the modal and resets its form, Tab moves focus through the trap, other keys do nothing |

## Left out

- DOM building, styling, aria attributes and body scroll locking are not modelled. They are view glue with no state beyond the counters modelled here.
- Fetching and loading the JSON catalog is not modelled, because it is network I/O.
- Address parsing (`getPhotographerIdFromURL`, with `parseInt` prefix semantics) is not modelled. Its result is the `Option<int>` input of `PhotographerPage.Select`.
- Corrupt liked-list JSON is not modelled. In the code `JSON.parse` throws on it, and the model has no fail-soft path the code lacks.
- Text.Compare: `localeCompare` is modelled as code-point lexicographic order, with shorter prefixes first. The locale collation is platform-dependent.
- Ordering.DateMeaning: dates are integer keys. `new Date(...)` parsing is not modelled.
- The viewer element for a media with neither image nor video is `NoElement`. The code's `appendChild(undefined)` would throw there; that throw is not modelled.
- The card path of a media with neither image nor video is not modelled as `assets/photographers/<folder>/undefined`. The video file name is "" there.
- PageTemplate.UpdateTotalLikes: the `#total-likes` element is looked up in the whole document, but the model only has the one inside the price badge. An element with that id elsewhere on the page is not modelled.
- Catalog.FolderName: a photographer named like an `Object.prototype` key (`toString`, …) is not modelled. The code's object lookup would return an inherited member for such a name.
- Timers, the like animation, `alert`, console logging and `window.location.reload` are not modelled. They are side effects with no effect on state.
- Focus restoration on close (`previouslyFocusedElement`) and the initial focus on open are not modelled. They are pure DOM effects.
- The like button's own Enter/Space handler is not modelled separately. It re-dispatches as a click, which `MediaCard.LikeClick` models. It also stops propagation (scripts/factories/media.js:194-200), so Enter on the like button never reaches the card's handler: `MediaCard.CardKey` covers keys pressed on the card itself only.
- The submit handler's logging, alert and close are not modelled beyond `ContactForm.ValidateForm` and `ContactForm.CloseModal`.
- FocusTrap.FocusAfterTab assumes the browser's native Tab order is the order of the focusable list. That holds for the contact modal only. In the lightbox, a disabled previous/next button stays in the trap's list, but native Tab skips it, so the cyclic step is not modelled there.
- ContactForm.CloseModal: `form.reset()` restores each control's default value. The model takes every default to be empty.
- Page transitions, the performance optimizer and the image preloader are not modelled. They are timers, animation and asynchronous loading outside this core.

## Findings

| source | as written | input that shows it | evidently intended | confidence | as-written member | corrected member |
|---|---|---|---|---|---|---|
| scripts/pages/photographer.js:127-154 | the first render hands the lightbox the media in catalog order, while the grid shows them sorted by popularity | a gallery of two media, A (3 likes, title "b") listed before B (5 likes, title "a"): the grid shows B then A, but opening B (the grid's first card) lands on the lightbox's last position, so next is disabled with a card still to come | the lightbox receives the grid's own order, as the re-sort path already does (lines 207-211) | not executed | PhotographerPage.FirstRenderNextDisabledMidGrid | PhotographerPage.AlignedNextFollowsGrid |

=== FILE: catalog.dfy ===
/**
 * The static catalog the gallery loads: photographers and their media, and
 * the mapping from a photographer's display name to the asset folder their
 * files live in.
 */
module Catalog {

  /**
   * One catalog media entry. `image` and `video` hold file names, the empty
   * string standing for an absent (falsy) field; `likes` is the baseline
   * count from the catalog; `date` is the publication date as a sortable
   * integer key (yyyymmdd).
   */
  datatype Media = Media(
    id: int,
    photographerId: int,
    title: string,
    image: string,
    video: string,
    likes: int,
    date: int)

  /** One catalog photographer; only the fields the core reads. */
  datatype Photographer = Photographer(id: int, name: string, price: int)

  /** Ids are unique within a list of media (the catalog's own promise). */
  predicate UniqueIds(s: seq<Media>) {
    forall i, j | 0 <= i < j < |s| :: s[i].id != s[j].id
  }

  /** Display names whose asset folder carries a shorter name. */
  const FolderMap: map<string, string> := map[
    "Mimi Keel" := "Mimi",
    "Ellie-Rose Wilkens" := "Ellie Rose",
    "Tracy Galindo" := "Tracy",
    "Nabeel Bradford" := "Nabeel",
    "Rhode Dubois" := "Rhode",
    "Marcel Nikolic" := "Marcel"
  ]

  const AssetRoot: string := "assets/photographers/"

  /** The asset folder of a photographer: the mapped short name, else the name itself. */
  function FolderName(name: string): (folder: string)
    ensures name in FolderMap ==> folder == FolderMap[name]
    ensures name !in FolderMap ==> folder == name
    ensures folder !in FolderMap
  {
    if name in FolderMap then FolderMap[name] else name
  }

  /** The path of a file in a photographer's asset folder. */
  function AssetPath(name: string, file: string): (path: string)
    ensures AssetRoot <= path
    ensures |file| < |path| && path[|path| - |file|..] == file
    ensures path == AssetRoot + FolderName(name) + "/" + file
  {
    AssetRoot + FolderName(name) + "/" + file
  }
}

=== FILE: contact_form.dfy ===
/**
 * The contact modal: field validation on the trimmed value, whole-form
 * validation, and the modal's keyboard handling.
 */
module ContactForm {
  import opened Text
  import FocusTrap

  /** A form control: its `name`, current `value`, and whether it is `required`. */
  datatype Field = Field(name: string, value: string, required: bool)

  datatype Verdict = Valid | Invalid(message: string)

  const RequiredMessage: string := "Ce champ est requis."
  const EmailMessage: string := "Veuillez entrer une adresse email valide."
  const LengthMessage: string := "Ce champ doit contenir au moins 2 caractères."

  /** A character the email pattern's class `[^\s@]` accepts. */
  predicate EmailChar(c: char) {
    !IsSpace(c) && c != '@'
  }

  /**
   * The language of `^[^\s@]+@[^\s@]+\.[^\s@]+$`: a non-empty local part,
   * one '@', then a domain with a '.' that has at least one character on
   * each side, and no white space or further '@' anywhere.
   */
  predicate EmailShape(v: string)
    ensures EmailShape(v) ==> |v| >= 5 && EmailChar(v[0]) && EmailChar(v[|v| - 1])
  {
    exists at, dot | 0 < at < |v| && at + 1 < dot < |v| - 1 ::
      && v[at] == '@' && v[dot] == '.'
      && forall k | 0 <= k < |v| && k != at :: EmailChar(v[k])
  }

  /**
   * One left-to-right pass deciding `EmailShape`: remember the first '@',
   * whether everything else so far is an email character, and a '.' seen
   * with room on both sides after that '@'.
   */
  method MatchEmail(v: string) returns (ok: bool)
    ensures ok <==> EmailShape(v)
  {
    var at := -1;
    var clean := true;
    var dot := -1;
    for i := 0 to |v|
      invariant -1 <= at < i
      invariant at >= 0 ==> v[at] == '@'
      invariant at == -1 ==> forall k | 0 <= k < i :: v[k] != '@'
      invariant clean <==> forall k | 0 <= k < i && k != at :: EmailChar(v[k])
      invariant dot != -1 ==> 0 <= at && at + 1 < dot < i && dot < |v| - 1 && v[dot] == '.'
      invariant dot == -1 && at >= 0 ==> forall k | at + 1 < k < i && k < |v| - 1 :: v[k] != '.'
    {
      if v[i] == '@' {
        if at == -1 { at := i; } else { clean := false; }
      } else if IsSpace(v[i]) {
        clean := false;
      } else if v[i] == '.' && dot == -1 && at >= 0 && at + 1 < i < |v| - 1 {
        dot := i;
      }
    }
    ok := clean && at > 0 && dot != -1;
    if ok {
      assert v[at] == '@' && v[dot] == '.';
    }
    if EmailShape(v) {
      var a, d :| 0 < a < |v| && a + 1 < d < |v| - 1 && v[a] == '@' && v[d] == '.'
                  && forall k | 0 <= k < |v| && k != a :: EmailChar(v[k]);
      assert at == a;
      assert v[d] == '.';
    }
  }

  /**
   * Checks one field on its trimmed value, stopping at the first failing
   * rule: a required field must not be empty; a non-empty `email` field
   * must have the email shape; any other non-empty value needs at least two
   * UTF-16 code units. An empty optional field is valid.
   */
  function ValidateField(f: Field): (v: Verdict)
    ensures var t := Trim(f.value);
      && (v == Invalid(RequiredMessage) <==> f.required && t == "")
      && (v == Invalid(EmailMessage) <==>
            !(f.required && t == "") && f.name == "email" && t != "" && !EmailShape(t))
      && (v == Invalid(LengthMessage) <==>
            !(f.required && t == "") && !(f.name == "email" && t != "")
            && t != "" && Utf16Length(t) < 2)
    ensures v.Invalid? ==> v.message in {RequiredMessage, EmailMessage, LengthMessage}
    ensures Trim(f.value) == "" && !f.required ==> v == Valid
  {
    var value := Trim(f.value);
    if f.required && value == "" then Invalid(RequiredMessage)
    else if f.name == "email" && value != "" then
      (if EmailShape(value) then Valid else Invalid(EmailMessage))
    else if value != "" && Utf16Length(value) < 2 then Invalid(LengthMessage)
    else Valid
  }

  /** White space around a value never changes its verdict. */
  lemma PaddingDoesNotMatter(f: Field, left: string, right: string)
    requires AllSpace(left) && AllSpace(right)
    ensures ValidateField(f.(value := left + f.value + right)) == ValidateField(f)
  {
    TrimIgnoresPadding(left, f.value, right);
  }

  /** An email the validator accepts has exactly one '@' and no white space. */
  lemma AcceptedEmailHasOneAt(f: Field)
    requires f.name == "email" && Trim(f.value) != ""
    requires ValidateField(f) == Valid
    ensures var t := Trim(f.value);
      && (forall k | 0 <= k < |t| :: !IsSpace(t[k]))
      && exists at | 0 <= at < |t| :: t[at] == '@' && forall k | 0 <= k < |t| && k != at :: t[k] != '@'
  {
  }

  /**
   * The length rule counts UTF-16 code units: a single character outside
   * the Basic Multilingual Plane already has length two and passes.
   */
  lemma AstralCharacterPassesLength()
    ensures ValidateField(Field("firstname", "\U{1F600}", true)) == Valid
  {
    assert Trim("\U{1F600}") == "\U{1F600}" by {
      assert !IsSpace('\U{1F600}');
    }
  }

  /**
   * Validates every field, each one reporting its own verdict (no early
   * exit), and answers whether all are valid.
   */
  method ValidateForm(fields: seq<Field>) returns (ok: bool, verdicts: seq<Verdict>)
    ensures |verdicts| == |fields|
    ensures forall i | 0 <= i < |fields| :: verdicts[i] == ValidateField(fields[i])
    ensures ok <==> forall i | 0 <= i < |fields| :: verdicts[i].Valid?
  {
    ok := true;
    verdicts := [];
    for i := 0 to |fields|
      invariant |verdicts| == i
      invariant forall j | 0 <= j < i :: verdicts[j] == ValidateField(fields[j])
      invariant ok <==> forall j | 0 <= j < i :: verdicts[j].Valid?
    {
      var v := ValidateField(fields[i]);
      verdicts := verdicts + [v];
      ok := ok && v.Valid?;
    }
  }

  /** The modal: shown or not, and its fields. */
  datatype Modal = Modal(open: bool, fields: seq<Field>)

  /** Hiding the modal resets the form: every value back to its empty default. */
  function CloseModal(m: Modal): (r: Modal)
    ensures !r.open && |r.fields| == |m.fields|
    ensures forall i | 0 <= i < |m.fields| ::
      r.fields[i] == m.fields[i].(value := "")
  {
    Modal(false, seq(|m.fields|, i requires 0 <= i < |m.fields| => m.fields[i].(value := "")))
  }

  /**
   * A reopened form starts over: after closing, every required field is
   * reported empty and every optional one is valid.
   */
  lemma ClosedFormStartsOver(m: Modal)
    ensures var r := CloseModal(m);
            forall i | 0 <= i < |r.fields| ::
              ValidateField(r.fields[i]) == (if r.fields[i].required then Invalid(RequiredMessage) else Valid)
  {
    var r := CloseModal(m);
    forall i | 0 <= i < |r.fields|
      ensures ValidateField(r.fields[i]) == (if r.fields[i].required then Invalid(RequiredMessage) else Valid)
    {
      assert r.fields[i].value == "";
      assert Trim("") == "";
    }
  }

  /**
   * The keydown handler, attached only while the modal is shown: Escape
   * closes it, Tab is trapped among its `focusables` elements.
   */
  function ModalKeyDown(m: Modal, key: string, shift: bool, focusables: nat, active: int)
    : (r: (Modal, FocusTrap.Move))
    ensures !m.open ==> r == (m, FocusTrap.Native)
    ensures m.open && key == "Escape" ==> r == (CloseModal(m), FocusTrap.Native)
    ensures m.open && key == "Tab" ==> r == (m, FocusTrap.OnTab(focusables, active, shift))
    ensures key != "Escape" && key != "Tab" ==> r == (m, FocusTrap.Native)
  {
    if !m.open then (m, FocusTrap.Native)
    else if key == "Escape" then (CloseModal(m), FocusTrap.Native)
    else if key == "Tab" then (m, FocusTrap.OnTab(focusables, active, shift))
    else (m, FocusTrap.Native)
  }
}

=== FILE: focus_trap.dfy ===
/**
 * The Tab/Shift+Tab focus trap of the lightbox and the contact modal: the
 * key handler forces focus from one end of a modal's focusable elements,
 * listed in document order, to the other.
 */
module FocusTrap {

  /** What the key handler does: leave the browser's own move, or force focus. */
  datatype Move = Native | FocusAt(position: nat)

  /**
   * The handler's decision for Tab (or Shift+Tab when `shift`), given
   * `count` focusable elements and the position `active` of the focused
   * one (any value outside `[0, count)` when focus is elsewhere).
   */
  function OnTab(count: nat, active: int, shift: bool): (m: Move)
    ensures m.FocusAt? ==> m.position < count
    ensures m.FocusAt? <==> 0 < count && active == (if shift then 0 else count - 1)
    ensures m.FocusAt? ==> m.position == (if shift then count - 1 else 0)
  {
    if count == 0 then Native
    else if shift then (if active == 0 then FocusAt(count - 1) else Native)
    else (if active == count - 1 then FocusAt(0) else Native)
  }

  /**
   * Where focus lands after Tab, taking the browser's own move to be the
   * neighbour in the list: the trap turns Tab into a cyclic step. This
   * holds for the contact modal, whose elements are never disabled; in the
   * lightbox a disabled previous/next button stays in the list but the
   * browser skips it, so the step is not modelled there.
   */
  function FocusAfterTab(count: nat, active: int, shift: bool): (next: int)
    requires 0 <= active < count
    ensures 0 <= next < count
    ensures shift ==> next == (active - 1 + count) % count
    ensures !shift ==> next == (active + 1) % count
  {
    match OnTab(count, active, shift)
    case FocusAt(p) => p
    case Native => if shift then active - 1 else active + 1
  }
}

=== FILE: lightbox.dfy ===
/**
 * The lightbox: a modal viewer over the gallery's media list with
 * previous/next navigation. The state is the list handed over by the page,
 * the current index, whether the modal is shown, what it currently
 * displays, and the last user gesture seen by the document-level listener.
 * The clock is the `now` parameter.
 */
module Lightbox {
  import opened Wrappers
  import opened Catalog
  import FocusTrap

  /** How old, in milliseconds, a gesture may be and still open the lightbox. */
  const MaxGestureAge: int := 2000

  /** The last click, keydown or touchstart: when, and whether the browser trusted it. */
  datatype Gesture = Gesture(time: int, isTrusted: bool)

  /** The media element placed in the viewer. */
  datatype Element =
    | Picture(src: string, alt: string)
    | Clip(src: string)
    | NoElement

  /**
   * What the viewer displays: the position it was loaded from, the media
   * element, the caption, and whether the previous/next buttons are disabled.
   */
  datatype Frame = Frame(at: int, element: Element, title: string, prevDisabled: bool, nextDisabled: bool)

  datatype State = State(
    items: seq<Media>,
    index: int,
    open: bool,
    frame: Option<Frame>,
    gesture: Gesture)

  /** The state when the script loads. */
  const Initial: State := State([], 0, false, None, Gesture(0, false))

  /**
   * An open lightbox points inside its list and displays that position,
   * captioned with the title of the media there. Every transition keeps it,
   * except opening an id that is not listed while the lightbox is already
   * shown (see `OpenMissingWhileShown`) and handing over a reordered list
   * while it is shown (see `ResortWhileShownGoesStale`).
   */
  predicate Valid(s: State) {
    s.open ==>
      && 0 <= s.index < |s.items| && s.frame.Some? && s.frame.value.at == s.index
      && s.frame.value.title == s.items[s.index].title
  }

  /** The document-level capture listener records every gesture. */
  function RecordGesture(s: State, time: int, trusted: bool): (r: State)
    ensures r.gesture == Gesture(time, trusted)
    ensures r.(gesture := s.gesture) == s
  {
    s.(gesture := Gesture(time, trusted))
  }

  /** The page hands over a new media list; nothing else is touched. */
  function Initialize(s: State, items: seq<Media>): (r: State)
    ensures r.items == items
    ensures r.(items := s.items) == s
  {
    s.(items := items)
  }

  /** A trusted gesture strictly younger than `MaxGestureAge` at time `now`. */
  predicate RecentGesture(g: Gesture, now: int)
    ensures RecentGesture(g, now) ==> g.isTrusted && now < g.time + 2000
    ensures g.isTrusted && now <= g.time + 1999 ==> RecentGesture(g, now)
  {
    g.isTrusted && now - g.time < MaxGestureAge
  }

  /**
   * The window is strict: a trusted gesture still opens 1999 ms later but
   * no longer at 2000 ms, and an untrusted one never does.
   */
  lemma GestureWindowIsStrict(g: Gesture)
    ensures g.isTrusted ==> RecentGesture(g, g.time + 1999) && !RecentGesture(g, g.time + 2000)
    ensures !g.isTrusted ==> forall now :: !RecentGesture(g, now)
  {
  }

  /** The first position of `id` in `items`, or -1. */
  function FindIndex(items: seq<Media>, id: int): (r: int)
    ensures -1 <= r < |items|
    ensures r >= 0 ==> items[r].id == id && forall j | 0 <= j < r :: items[j].id != id
    ensures r == -1 <==> forall j | 0 <= j < |items| :: items[j].id != id
  {
    if |items| == 0 then -1
    else if items[0].id == id then 0
    else
      var t := FindIndex(items[1..], id);
      if t == -1 then -1 else t + 1
  }

  /** The element the viewer builds for `m`: image if present, else video, else none. */
  function ElementFor(m: Media, name: string): (e: Element)
    ensures e.Picture? <==> m.image != ""
    ensures e.Clip? <==> m.image == "" && m.video != ""
    ensures e.Picture? ==> e.src == AssetPath(name, m.image) && e.alt == m.title
    ensures e.Clip? ==> e.src == AssetPath(name, m.video)
  {
    if m.image != "" then Picture(AssetPath(name, m.image), m.title)
    else if m.video != "" then Clip(AssetPath(name, m.video))
    else NoElement
  }

  /**
   * Displays position `i`. Out-of-range positions are ignored. The nav
   * buttons follow the current index (not `i`): previous is disabled at or
   * before the first position, next at or after the last.
   */
  function Load(s: State, i: int, name: string): (r: State)
    ensures i < 0 || i >= |s.items| ==> r == s
    ensures 0 <= i < |s.items| ==>
      && r.(frame := s.frame) == s
      && r.frame.Some? && r.frame.value.at == i
      && r.frame.value.title == s.items[i].title
      && r.frame.value.element == ElementFor(s.items[i], name)
      && (r.frame.value.prevDisabled <==> s.index <= 0)
      && (r.frame.value.nextDisabled <==> s.index >= |s.items| - 1)
  {
    if i < 0 || i >= |s.items| then s
    else
      var m := s.items[i];
      s.(frame := Some(Frame(i, ElementFor(m, name), m.title, s.index <= 0, s.index >= |s.items| - 1)))
  }

  /**
   * Opens the lightbox on media `id`. Unless forced, a trusted gesture
   * younger than `MaxGestureAge` is required, else nothing changes. The
   * index then becomes the first position of `id` and the lightbox is
   * shown there; when there is none the index is still overwritten with -1
   * and nothing else changes, so a lightbox already shown stays shown.
   */
  function Open(s: State, id: int, name: string, now: int, force: bool): (r: State)
    ensures !force && !RecentGesture(s.gesture, now) ==> r == s
    ensures force || RecentGesture(s.gesture, now) ==>
      && r.items == s.items && r.gesture == s.gesture
      && r.index == FindIndex(s.items, id)
    ensures (force || RecentGesture(s.gesture, now)) && r.index == -1 ==>
      r == s.(index := -1)
    ensures (force || RecentGesture(s.gesture, now)) && r.index != -1 ==>
      && r.open && 0 <= r.index < |r.items| && r.items[r.index].id == id
      && r.frame.Some? && r.frame.value.at == r.index
      && r.frame.value.element == ElementFor(r.items[r.index], name)
      && r.frame.value.title == r.items[r.index].title
      && (r.frame.value.prevDisabled <==> r.index <= 0)
      && (r.frame.value.nextDisabled <==> r.index >= |r.items| - 1)
  {
    if !force && !RecentGesture(s.gesture, now) then s
    else
      var i := FindIndex(s.items, id);
      if i == -1 then s.(index := -1)
      else Load(s.(index := i, open := true), i, name)
  }

  /** Hides the lightbox; the list and index are kept. */
  function Close(s: State): (r: State)
    ensures !r.open && r.(open := s.open) == s
  {
    s.(open := false)
  }

  /** Click on the backdrop outside the content closes; elsewhere nothing happens. */
  function BackdropClick(s: State, onBackdrop: bool): (r: State)
    ensures onBackdrop ==> !r.open
    ensures !onBackdrop ==> r == s
    ensures r.(open := s.open) == s
  {
    if onBackdrop then Close(s) else s
  }

  /** Moves one position back, unless already at (or before) the first. */
  function Prev(s: State, name: string): (r: State)
    ensures s.index > 0 ==> r.index == s.index - 1
    ensures 0 < s.index <= |s.items| ==>
      r.frame == Some(Frame(r.index, ElementFor(s.items[r.index], name), s.items[r.index].title,
                            r.index <= 0, r.index >= |s.items| - 1))
    ensures s.index <= 0 ==> r == s
    ensures r.items == s.items && r.open == s.open && r.gesture == s.gesture
    ensures 0 <= s.index < |s.items| ==> 0 <= r.index < |s.items|
  {
    if s.index > 0 then Load(s.(index := s.index - 1), s.index - 1, name) else s
  }

  /** Moves one position forward, unless already at (or after) the last. */
  function Next(s: State, name: string): (r: State)
    ensures s.index < |s.items| - 1 ==> r.index == s.index + 1
    ensures -1 <= s.index < |s.items| - 1 ==>
      r.frame == Some(Frame(r.index, ElementFor(s.items[r.index], name), s.items[r.index].title,
                            r.index <= 0, r.index >= |s.items| - 1))
    ensures s.index >= |s.items| - 1 ==> r == s
    ensures r.items == s.items && r.open == s.open && r.gesture == s.gesture
    ensures 0 <= s.index < |s.items| ==> 0 <= r.index < |s.items|
  {
    if s.index < |s.items| - 1 then Load(s.(index := s.index + 1), s.index + 1, name) else s
  }

  /**
   * The keydown handler, attached only while the lightbox is shown: Escape
   * closes, the arrows navigate, Tab is trapped among the `focusables`
   * elements. `active` is the position of the focused element among them.
   */
  function KeyDown(s: State, key: string, shift: bool, name: string, focusables: nat, active: int)
    : (r: (State, FocusTrap.Move))
    ensures !s.open ==> r == (s, FocusTrap.Native)
    ensures s.open && key == "Escape" ==> r == (Close(s), FocusTrap.Native)
    ensures s.open && key == "ArrowLeft" ==> r == (Prev(s, name), FocusTrap.Native)
    ensures s.open && key == "ArrowRight" ==> r == (Next(s, name), FocusTrap.Native)
    ensures key == "Tab" ==> r.0 == s
    ensures s.open && key == "Tab" ==> r.1 == FocusTrap.OnTab(focusables, active, shift)
    ensures key !in {"Escape", "ArrowLeft", "ArrowRight", "Tab"} ==> r == (s, FocusTrap.Native)
  {
    if !s.open then (s, FocusTrap.Native)
    else if key == "Escape" then (Close(s), FocusTrap.Native)
    else if key == "ArrowLeft" then (Prev(s, name), FocusTrap.Native)
    else if key == "ArrowRight" then (Next(s, name), FocusTrap.Native)
    else if key == "Tab" then (s, FocusTrap.OnTab(focusables, active, shift))
    else (s, FocusTrap.Native)
  }

  /**
   * The nav buttons are disabled exactly when pressing them would do
   * nothing: previous at the first position, next at the last.
   */
  lemma NavButtonsMatchMoves(s: State, name: string)
    requires Valid(s) && s.open
    requires s.frame.value == Load(s, s.index, name).frame.value
    ensures s.frame.value.prevDisabled <==> Prev(s, name) == s
    ensures s.frame.value.nextDisabled <==> Next(s, name) == s
  {
  }

  /** Next then previous returns to the same position and display. */
  lemma NextThenPrev(s: State, name: string)
    requires 0 <= s.index < |s.items| - 1
    requires s.frame == Load(s, s.index, name).frame
    ensures Prev(Next(s, name), name) == s
  {
  }

  /** Every transition but a failed open on a shown lightbox keeps `Valid`. */
  lemma TransitionsKeepValid(s: State, name: string, id: int, now: int, force: bool,
                             key: string, shift: bool, focusables: nat, active: int,
                             time: int, trusted: bool)
    requires Valid(s)
    requires s.open ==> FindIndex(s.items, id) != -1
    ensures Valid(Open(s, id, name, now, force))
    ensures Valid(Prev(s, name)) && Valid(Next(s, name))
    ensures Valid(Close(s)) && Valid(RecordGesture(s, time, trusted))
    ensures Valid(KeyDown(s, key, shift, name, focusables, active).0)
  {
  }

  /**
   * Re-handing a list of the same length (a re-sort) keeps `Valid` exactly
   * when the lightbox is hidden or the media now at its index has the
   * caption it displays: the displayed frame is not refreshed.
   */
  lemma ReinitializeKeepsValid(s: State, items: seq<Media>)
    requires Valid(s) && |items| == |s.items|
    ensures Valid(Initialize(s, items)) <==> !s.open || items[s.index].title == s.items[s.index].title
  {
  }

  /**
   * A re-sort while the lightbox is shown leaves the old frame on screen:
   * the caption no longer belongs to the media at the current index.
   */
  lemma ResortWhileShownGoesStale()
    ensures var a := Media(1, 1, "a", "a.jpg", "", 0, 0);
            var b := Media(2, 1, "b", "b.jpg", "", 0, 0);
            var s := Open(Initialize(Initial, [a, b]), 1, "n", 0, true);
            Valid(s) && s.frame.value.title == "a"
            && !Valid(Initialize(s, [b, a]))
  {
    var a := Media(1, 1, "a", "a.jpg", "", 0, 0);
    var b := Media(2, 1, "b", "b.jpg", "", 0, 0);
    assert FindIndex([a, b], 1) == 0;
  }

  /**
   * Opening an id that is not listed while the lightbox is shown leaves it
   * shown with index -1.
   */
  lemma OpenMissingWhileShown()
    ensures var m := Media(1, 1, "t", "a.jpg", "", 0, 0);
            var s := Load(State([m], 0, true, None, Gesture(0, true)), 0, "n");
            Valid(s) && !Valid(Open(s, 2, "n", 0, true))
  {
  }
}

=== FILE: like_store.dfy ===
/**
 * The viewer's liked media, persisted in the browser's key-value store as a
 * serialised list of ids under one key. The store entry is modelled as
 * `Option<seq<int>>`: `None` when the key is absent.
 */
module LikeStore {
  import opened Wrappers

  /** The storage key holding the liked list. */
  const LikedMediaKey: string := "fisheye_liked_media"

  type Storage = Option<seq<int>>

  /** The stored list; an absent key reads as the empty list. */
  function Read(st: Storage): (ids: seq<int>)
    ensures st.None? ==> ids == []
    ensures st.Some? ==> ids == st.value
  {
    st.GetOr([])
  }

  /** The media is liked exactly when its id is in the stored list; an absent key likes nothing. */
  predicate IsLiked(st: Storage, id: int)
    ensures IsLiked(st, id) <==> st.Some? && id in st.value
  {
    id in Read(st)
  }

  predicate NoDuplicates(ids: seq<int>) {
    forall i, j | 0 <= i < j < |ids| :: ids[i] != ids[j]
  }

  /**
   * Appends `id` to the stored list unless it is already there, in which
   * case the store is not written at all.
   */
  function MarkLiked(st: Storage, id: int): (r: Storage)
    ensures IsLiked(r, id)
    ensures forall x :: IsLiked(r, x) <==> IsLiked(st, x) || x == id
    ensures IsLiked(st, id) ==> r == st
    ensures !IsLiked(st, id) ==> Read(r) == Read(st) + [id]
    ensures NoDuplicates(Read(st)) ==> NoDuplicates(Read(r))
  {
    var ids := Read(st);
    if id in ids then st else Some(ids + [id])
  }

  /** Marking twice is marking once. */
  lemma MarkLikedIdempotent(st: Storage, id: int)
    ensures MarkLiked(MarkLiked(st, id), id) == MarkLiked(st, id)
  {
  }

  /** Every list built by marking from an empty store is duplicate-free. */
  lemma {:induction false} MarkingNeverDuplicates(ids: seq<int>)
    ensures NoDuplicates(Read(MarkAll(None, ids)))
  {
    if |ids| > 0 {
      MarkingNeverDuplicates(ids[..|ids| - 1]);
    }
  }

  /** The store after marking each id of `ids` in turn. */
  function MarkAll(st: Storage, ids: seq<int>): (r: Storage)
    ensures forall x :: IsLiked(r, x) <==> IsLiked(st, x) || x in ids
  {
    if |ids| == 0 then st
    else MarkLiked(MarkAll(st, ids[..|ids| - 1]), ids[|ids| - 1])
  }

  /** Removes the key: nothing is liked any more. */
  function ResetAll(st: Storage): (r: Storage)
    ensures forall id :: !IsLiked(r, id)
  {
    None
  }
}

=== FILE: media_card.dfy ===
/**
 * One media card of the gallery: its asset path, the like count it
 * displays (the catalog baseline plus the viewer's own like), the like
 * button, and the clicks and keys that open the lightbox on it.
 */
module MediaCard {
  import opened Catalog
  import LikeStore
  import Lightbox

  /** The card's source file: the image when present, otherwise the video. */
  function MediaPath(m: Media, name: string): (path: string)
    ensures m.image != "" ==> path == AssetPath(name, m.image)
    ensures m.image == "" ==> path == AssetPath(name, m.video)
  {
    AssetPath(name, if m.image != "" then m.image else m.video)
  }

  /**
   * The lightbox displays the same file the card does, for every media that
   * has an image or a video.
   */
  lemma LightboxShowsCardFile(m: Media, name: string)
    requires m.image != "" || m.video != ""
    ensures Lightbox.ElementFor(m, name).src == MediaPath(m, name)
  {
  }

  /** The count shown for media `id` with catalog baseline `likes`. */
  function DisplayedLikes(likes: int, st: LikeStore.Storage, id: int): (n: int)
    ensures n == likes || n == likes + 1
    ensures n == likes + 1 <==> LikeStore.IsLiked(st, id)
  {
    if LikeStore.IsLiked(st, id) then likes + 1 else likes
  }

  /** A rendered card: the media id, its baseline, and its `data-likes` value. */
  datatype Card = Card(id: int, baseline: int, likes: int)

  /** The card shows the baseline plus the viewer's own like. */
  predicate Consistent(c: Card, st: LikeStore.Storage) {
    c.likes == DisplayedLikes(c.baseline, st, c.id)
  }

  function Render(m: Media, st: LikeStore.Storage): (c: Card)
    ensures c.id == m.id && c.baseline == m.likes
    ensures Consistent(c, st)
  {
    Card(m.id, m.likes, DisplayedLikes(m.likes, st, m.id))
  }

  /**
   * A click on the like button: ignored when the media is already liked;
   * otherwise the shown count goes up by one and the id is recorded.
   */
  function LikeClick(c: Card, st: LikeStore.Storage): (r: (Card, LikeStore.Storage))
    ensures LikeStore.IsLiked(st, c.id) ==> r == (c, st)
    ensures !LikeStore.IsLiked(st, c.id) ==>
      && r.0 == c.(likes := c.likes + 1)
      && r.1 == LikeStore.MarkLiked(st, c.id)
    ensures LikeStore.IsLiked(r.1, c.id)
    ensures Consistent(c, st) ==> Consistent(r.0, r.1)
  {
    if LikeStore.IsLiked(st, c.id) then (c, st)
    else (c.(likes := c.likes + 1), LikeStore.MarkLiked(st, c.id))
  }

  /** A second click changes nothing: one viewer adds at most one like. */
  lemma LikeTwiceIsLikeOnce(c: Card, st: LikeStore.Storage)
    requires Consistent(c, st)
    ensures var (c1, st1) := LikeClick(c, st);
            LikeClick(c1, st1) == (c1, st1) && c1.likes == c.baseline + 1
  {
  }

  /** Liking one card leaves every other card consistent with the store. */
  lemma LikeKeepsOthersConsistent(c: Card, other: Card, st: LikeStore.Storage)
    requires Consistent(other, st) && other.id != c.id
    ensures Consistent(other, LikeClick(c, st).1)
  {
  }

  /**
   * A click on the card, not inside its like button. The document listener
   * records the gesture first; the card then opens the lightbox, unforced,
   * only when the browser trusted the click.
   */
  function CardClick(s: Lightbox.State, m: Media, name: string, now: int, trusted: bool, onLikeButton: bool)
    : (r: Lightbox.State)
    ensures r.gesture == Lightbox.Gesture(now, trusted)
    ensures trusted && !onLikeButton ==> r == Lightbox.Open(Lightbox.RecordGesture(s, now, trusted), m.id, name, now, false)
    ensures !trusted || onLikeButton ==> r.(gesture := s.gesture) == s
  {
    var s1 := Lightbox.RecordGesture(s, now, trusted);
    if trusted && !onLikeButton then Lightbox.Open(s1, m.id, name, now, false) else s1
  }

  /** Enter on the focused card opens it the same way, only when trusted. */
  function CardKey(s: Lightbox.State, m: Media, name: string, now: int, trusted: bool, key: string)
    : (r: Lightbox.State)
    ensures r.gesture == Lightbox.Gesture(now, trusted)
    ensures key == "Enter" && trusted ==> r == Lightbox.Open(Lightbox.RecordGesture(s, now, trusted), m.id, name, now, false)
    ensures key != "Enter" || !trusted ==> r.(gesture := s.gesture) == s
  {
    var s1 := Lightbox.RecordGesture(s, now, trusted);
    if key == "Enter" && trusted then Lightbox.Open(s1, m.id, name, now, false) else s1
  }

  /**
   * A trusted click on a listed card always passes the gesture guard, since
   * the click itself is the fresh gesture: the lightbox opens on that card.
   */
  lemma TrustedClickOpens(s: Lightbox.State, m: Media, name: string, now: int)
    requires m in s.items
    ensures var r := CardClick(s, m, name, now, true, false);
            r.open && r.items[r.index].id == m.id && r.items == s.items
  {
    var i :| 0 <= i < |s.items| && s.items[i] == m;
    assert Lightbox.FindIndex(s.items, m.id) != -1;
  }
}

=== FILE: ordering.dfy ===
/**
 * The three gallery orders and the sort that applies them. The page sorts
 * a copy of the media list with a comparator; the engine's sort is stable,
 * so its result is the unique stable sorted permutation, which `Sort`
 * computes by insertion.
 */
module Ordering {
  import Text
  import opened Catalog

  datatype SortKey = Popularity | Date | Title

  /** The value of the sort selector; anything unrecognised means popularity. */
  function ParseSortKey(value: string): (k: SortKey)
    ensures k == Date <==> value == "date"
    ensures k == Title <==> value == "title"
    ensures k == Popularity <==> value != "date" && value != "title"
  {
    if value == "date" then Date
    else if value == "title" then Title
    else Popularity
  }

  /**
   * The comparator handed to the sort: negative when `a` goes first,
   * positive when `b` does, zero when the two rank equal.
   */
  function Compare(k: SortKey, a: Media, b: Media): (r: int)
    ensures k == Popularity ==>
      && (r < 0 <==> a.likes > b.likes || (a.likes == b.likes && Text.Compare(a.title, b.title) < 0))
      && (r == 0 <==> a.likes == b.likes && a.title == b.title)
    ensures k == Date ==> (r < 0 <==> a.date > b.date) && (r == 0 <==> a.date == b.date)
    ensures k == Title ==> (r < 0 <==> Text.Compare(a.title, b.title) < 0) && (r == 0 <==> a.title == b.title)
  {
    match k
    case Date => b.date - a.date
    case Title => Text.Compare(a.title, b.title)
    case Popularity =>
      if b.likes != a.likes then b.likes - a.likes
      else Text.Compare(a.title, b.title)
  }

  /** `a` may precede `b` in order `k`. */
  predicate Le(k: SortKey, a: Media, b: Media) {
    Compare(k, a, b) <= 0
  }

  /** Most likes first; equal likes by title. */
  lemma PopularityMeaning(a: Media, b: Media)
    ensures Le(Popularity, a, b) <==>
      a.likes > b.likes || (a.likes == b.likes && Text.Compare(a.title, b.title) <= 0)
  {
  }

  /** Newest first. */
  lemma DateMeaning(a: Media, b: Media)
    ensures Le(Date, a, b) <==> a.date >= b.date
  {
  }

  lemma CompareFlip(k: SortKey, a: Media, b: Media)
    ensures Compare(k, b, a) == -Compare(k, a, b)
  {
    Text.CompareFlip(a.title, b.title);
  }

  /** Every two media are comparable. */
  lemma LeTotal(k: SortKey, a: Media, b: Media)
    ensures Le(k, a, b) || Le(k, b, a)
  {
    CompareFlip(k, a, b);
  }

  lemma LeTransitive(k: SortKey, a: Media, b: Media, c: Media)
    requires Le(k, a, b) && Le(k, b, c)
    ensures Le(k, a, c)
  {
    if k == Title || (k == Popularity && a.likes == b.likes && b.likes == c.likes) {
      Text.CompareTransitive(a.title, b.title, c.title);
    }
  }

  /** Two media rank equal exactly when each may precede the other. */
  lemma TiedIffBothLe(k: SortKey, a: Media, b: Media)
    ensures Compare(k, a, b) == 0 <==> Le(k, a, b) && Le(k, b, a)
  {
    CompareFlip(k, a, b);
  }

  predicate Sorted(k: SortKey, s: seq<Media>) {
    forall i, j | 0 <= i < j < |s| :: Le(k, s[i], s[j])
  }

  /** Places `x` in front of the first element it may precede. */
  function Insert(k: SortKey, x: Media, t: seq<Media>): (r: seq<Media>)
    ensures Sorted(k, t) ==> Sorted(k, r)
    ensures |r| == |t| + 1
    ensures multiset(r) == multiset(t) + multiset{x}
  {
    if |t| == 0 then [x]
    else if Le(k, x, t[0]) then
      SortedCons(k, x, t);
      [x] + t
    else
      var rest := Insert(k, x, t[1..]);
      assert t == [t[0]] + t[1..];
      LeTotal(k, x, t[0]);
      SortedConsPast(k, x, t, rest);
      [t[0]] + rest
  }

  lemma SortedCons(k: SortKey, x: Media, t: seq<Media>)
    requires |t| > 0 && Le(k, x, t[0])
    ensures Sorted(k, t) ==> Sorted(k, [x] + t)
  {
    if Sorted(k, t) {
      forall j | 0 <= j < |t| ensures Le(k, x, t[j]) {
        if j > 0 { LeTransitive(k, x, t[0], t[j]); }
      }
    }
  }

  lemma SortedConsPast(k: SortKey, x: Media, t: seq<Media>, rest: seq<Media>)
    requires |t| > 0 && Le(k, t[0], x)
    requires multiset(rest) == multiset(t[1..]) + multiset{x}
    requires Sorted(k, t[1..]) ==> Sorted(k, rest)
    ensures Sorted(k, t) ==> Sorted(k, [t[0]] + rest)
  {
    if Sorted(k, t) {
      assert Sorted(k, t[1..]);
      forall j | 0 <= j < |rest| ensures Le(k, t[0], rest[j]) {
        assert rest[j] in multiset(rest);
        if rest[j] != x {
          assert rest[j] in multiset(t[1..]);
          var m :| 0 <= m < |t[1..]| && t[1..][m] == rest[j];
          assert t[m + 1] == rest[j];
        }
      }
    }
  }

  /** The stable sort of `s` in order `k`. */
  function Sort(k: SortKey, s: seq<Media>): (r: seq<Media>)
    ensures Sorted(k, r)
    ensures |r| == |s|
    ensures multiset(r) == multiset(s)
  {
    if |s| == 0 then []
    else
      assert s == [s[0]] + s[1..];
      Insert(k, s[0], Sort(k, s[1..]))
  }

  /** The members of `s` that rank equal to `x`, in the order of `s`. */
  function Ties(k: SortKey, x: Media, s: seq<Media>): seq<Media> {
    if |s| == 0 then []
    else (if Compare(k, s[0], x) == 0 then [s[0]] else []) + Ties(k, x, s[1..])
  }

  lemma {:induction false} InsertTies(k: SortKey, x: Media, y: Media, t: seq<Media>)
    ensures Compare(k, y, x) == 0 ==> Ties(k, x, Insert(k, y, t)) == [y] + Ties(k, x, t)
    ensures Compare(k, y, x) != 0 ==> Ties(k, x, Insert(k, y, t)) == Ties(k, x, t)
  {
    if |t| == 0 {
      assert Insert(k, y, t) == [y];
      TiesCons(k, x, y, []);
    } else if Le(k, y, t[0]) {
      assert Insert(k, y, t) == [y] + t;
      TiesCons(k, x, y, t);
    } else {
      InsertTies(k, x, y, t[1..]);
      if Compare(k, y, x) == 0 {
        InsertTiedPastHead(k, x, y, t);
      } else {
        InsertUntiedPastHead(k, x, y, t);
      }
    }
  }

  lemma TiesCons(k: SortKey, x: Media, a: Media, rest: seq<Media>)
    ensures Ties(k, x, [a] + rest) == (if Compare(k, a, x) == 0 then [a] else []) + Ties(k, x, rest)
  {
    assert ([a] + rest)[1..] == rest;
  }

  lemma InsertPastHead(k: SortKey, y: Media, t: seq<Media>)
    requires |t| > 0 && !Le(k, y, t[0])
    ensures Insert(k, y, t) == [t[0]] + Insert(k, y, t[1..])
  {
  }

  /** `y`, tied with `x`, goes past the head of `t`, which therefore is not tied with `x`. */
  lemma InsertTiedPastHead(k: SortKey, x: Media, y: Media, t: seq<Media>)
    requires |t| > 0 && !Le(k, y, t[0]) && Compare(k, y, x) == 0
    requires Ties(k, x, Insert(k, y, t[1..])) == [y] + Ties(k, x, t[1..])
    ensures Ties(k, x, Insert(k, y, t)) == [y] + Ties(k, x, t)
  {
    InsertPastHead(k, y, t);
    StrictlyBeforeIsNotTied(k, y, x, t[0]);
    TiesCons(k, x, t[0], Insert(k, y, t[1..]));
    assert Ties(k, x, t) == Ties(k, x, t[1..]);
  }

  lemma InsertUntiedPastHead(k: SortKey, x: Media, y: Media, t: seq<Media>)
    requires |t| > 0 && !Le(k, y, t[0])
    requires Ties(k, x, Insert(k, y, t[1..])) == Ties(k, x, t[1..])
    ensures Ties(k, x, Insert(k, y, t)) == Ties(k, x, t)
  {
    InsertPastHead(k, y, t);
    TiesCons(k, x, t[0], Insert(k, y, t[1..]));
  }

  /** Whatever ranks strictly before `y` does not tie with anything tied to `y`. */
  lemma StrictlyBeforeIsNotTied(k: SortKey, y: Media, x: Media, z: Media)
    requires Compare(k, y, x) == 0 && !Le(k, y, z)
    ensures Compare(k, z, x) != 0
  {
    CompareFlip(k, y, z);
    TiedIffBothLe(k, y, x);
    TiedIffBothLe(k, z, x);
    if Compare(k, z, x) == 0 {
      LeTransitive(k, y, x, z);
    }
  }

  /**
   * Stability: media that rank equal keep their relative input order, so
   * the result is fully determined even where the comparator ties.
   */
  lemma {:induction false} SortIsStable(k: SortKey, x: Media, s: seq<Media>)
    ensures Ties(k, x, Sort(k, s)) == Ties(k, x, s)
  {
    if |s| > 0 {
      var tail := Sort(k, s[1..]);
      SortIsStable(k, x, s[1..]);
      assert Sort(k, s) == Insert(k, s[0], tail);
      InsertTies(k, x, s[0], tail);
      var head := if Compare(k, s[0], x) == 0 then [s[0]] else [];
      assert Ties(k, x, s) == head + Ties(k, x, s[1..]);
    }
  }

  /** Sorting preserves unique ids, since it only rearranges. */
  lemma {:induction false} SortKeepsUniqueIds(k: SortKey, s: seq<Media>)
    requires UniqueIds(s)
    ensures UniqueIds(Sort(k, s))
  {
    if |s| > 0 {
      SortKeepsUniqueIds(k, s[1..]);
      var t := Sort(k, s[1..]);
      forall m | m in t ensures m.id != s[0].id {
        assert m in multiset(t);
        assert m in s[1..];
      }
      InsertKeepsUniqueIds(k, s[0], t);
    }
  }

  lemma {:induction false} InsertKeepsUniqueIds(k: SortKey, x: Media, t: seq<Media>)
    requires UniqueIds(t)
    requires forall m | m in t :: m.id != x.id
    ensures UniqueIds(Insert(k, x, t))
  {
    if |t| == 0 || Le(k, x, t[0]) {
      UniqueIdsCons(x, t);
    } else {
      var tail := t[1..];
      assert UniqueIds(tail) by {
        forall i, j | 0 <= i < j < |tail| ensures tail[i].id != tail[j].id {
          assert tail[i] == t[i + 1] && tail[j] == t[j + 1];
        }
      }
      InsertKeepsUniqueIds(k, x, tail);
      var rest := Insert(k, x, tail);
      forall m | m in rest ensures m.id != t[0].id {
        assert m in multiset(rest);
        if m != x {
          assert m in multiset(tail);
          var j :| 0 <= j < |tail| && tail[j] == m;
          assert t[j + 1] == m;
        }
      }
      UniqueIdsCons(t[0], rest);
      assert Insert(k, x, t) == [t[0]] + rest;
    }
  }

  /** Putting a media in front of a list keeps ids unique when its id is new. */
  lemma UniqueIdsCons(h: Media, rest: seq<Media>)
    requires UniqueIds(rest)
    requires forall m | m in rest :: m.id != h.id
    ensures UniqueIds([h] + rest)
  {
    var s := [h] + rest;
    forall i, j | 0 <= i < j < |s| ensures s[i].id != s[j].id {
      assert s[j] == rest[j - 1];
      if i > 0 {
        assert s[i] == rest[i - 1];
      }
    }
  }

  /** The example ranking: five likes first, then the two threes by title. */
  lemma PopularityExample()
    ensures var a := Media(1, 7, "b", "a.jpg", "", 3, 20200101);
            var b := Media(2, 7, "a", "b.jpg", "", 5, 20200101);
            var c := Media(3, 7, "a", "c.jpg", "", 3, 20200101);
            Sort(Popularity, [a, b, c]) == [b, c, a]
  {
    var a := Media(1, 7, "b", "a.jpg", "", 3, 20200101);
    var b := Media(2, 7, "a", "b.jpg", "", 5, 20200101);
    var c := Media(3, 7, "a", "c.jpg", "", 3, 20200101);
    assert [a, b, c][1..] == [b, c];
    assert [b, c][1..] == [c];
    assert Sort(Popularity, [c]) == [c];
    assert Sort(Popularity, [b, c]) == [b, c];
  }
}

=== FILE: page_template.dfy ===
/**
 * The photographer page template's price badge and its total-likes
 * counter: the total is the sum of the `data-likes` of every rendered card.
 */
module PageTemplate {
  import opened Wrappers
  import opened Catalog
  import MediaCard
  import LikeStore

  /**
   * The sum of the `data-likes` values of the cards, in page order; a card
   * without the attribute counts as 0.
   */
  function TotalLikes(dataLikes: seq<Option<int>>): (total: int)
    ensures (forall i | 0 <= i < |dataLikes| :: dataLikes[i].GetOr(0) >= 0) ==> total >= 0
    ensures (forall i | 0 <= i < |dataLikes| :: dataLikes[i].None?) ==> total == 0
    ensures |dataLikes| == 1 ==> total == dataLikes[0].GetOr(0)
  {
    if |dataLikes| == 0 then 0
    else dataLikes[0].GetOr(0) + TotalLikes(dataLikes[1..])
  }

  /** The total of a page split in two is the sum of the two totals. */
  lemma {:induction false} TotalLikesAppend(a: seq<Option<int>>, b: seq<Option<int>>)
    ensures TotalLikes(a + b) == TotalLikes(a) + TotalLikes(b)
  {
    if |a| > 0 {
      assert (a + b)[1..] == a[1..] + b;
      TotalLikesAppend(a[1..], b);
    } else {
      assert a + b == b;
    }
  }

  /** Raising one card's count by `d` raises the total by `d`. */
  lemma TotalLikesBump(dataLikes: seq<Option<int>>, k: nat, d: int)
    requires k < |dataLikes| && dataLikes[k].Some?
    ensures TotalLikes(dataLikes[k := Some(dataLikes[k].value + d)]) == TotalLikes(dataLikes) + d
  {
    var bumped := dataLikes[k := Some(dataLikes[k].value + d)];
    assert dataLikes == dataLikes[..k] + [dataLikes[k]] + dataLikes[k + 1..];
    assert bumped == dataLikes[..k] + [bumped[k]] + dataLikes[k + 1..];
    TotalLikesAppend(dataLikes[..k] + [dataLikes[k]], dataLikes[k + 1..]);
    TotalLikesAppend(dataLikes[..k], [dataLikes[k]]);
    TotalLikesAppend(dataLikes[..k] + [bumped[k]], dataLikes[k + 1..]);
    TotalLikesAppend(dataLikes[..k], [bumped[k]]);
  }

  /** The `data-likes` attribute of every rendered card. */
  function DataLikes(cards: seq<MediaCard.Card>): (attrs: seq<Option<int>>)
    ensures |attrs| == |cards|
    ensures forall i | 0 <= i < |cards| :: attrs[i] == Some(cards[i].likes)
  {
    seq(|cards|, i requires 0 <= i < |cards| => Some(cards[i].likes))
  }

  /**
   * A like on card `k` raises the page total by exactly one when the media
   * was not liked yet, and leaves it unchanged otherwise.
   */
  lemma LikeRaisesTotalByOne(cards: seq<MediaCard.Card>, k: nat, st: LikeStore.Storage)
    requires k < |cards|
    ensures var (c, _) := MediaCard.LikeClick(cards[k], st);
            TotalLikes(DataLikes(cards[k := c]))
              == TotalLikes(DataLikes(cards)) + (if LikeStore.IsLiked(st, cards[k].id) then 0 else 1)
  {
    var (c, _) := MediaCard.LikeClick(cards[k], st);
    var d := if LikeStore.IsLiked(st, cards[k].id) then 0 else 1;
    assert DataLikes(cards[k := c]) == DataLikes(cards)[k := Some(DataLikes(cards)[k].value + d)];
    TotalLikesBump(DataLikes(cards), k, d);
  }

  /**
   * The page's `#total-likes` element: the number in its `.total-count`
   * child, or `None` when it has no such child, and the total its
   * accessible label announces, or `None` while it still carries the
   * template's initial label.
   */
  datatype Tally = Tally(count: Option<int>, announced: Option<int>)

  /** The page's price badge and the `#total-likes` element inside it, if any. */
  datatype Badge = Badge(price: int, owner: string, tally: Option<Tally>)

  /** The badge the template hands out: the page's own if it has one, else a fresh one at 0. */
  function GetPriceBadge(existing: Option<Badge>, p: Photographer): (b: Badge)
    ensures existing.Some? ==> b == existing.value
    ensures existing.None? ==> b == Badge(p.price, p.name, Some(Tally(Some(0), None)))
  {
    match existing
    case Some(e) => e
    case None => Badge(p.price, p.name, Some(Tally(Some(0), None)))
  }

  /**
   * The page's counters: the price badge, if any, and the page's own
   * fallback counter `#total-likes-count`, if any.
   */
  datatype Counters = Counters(badge: Option<Badge>, fallback: Option<int>)

  /** Whether the page has a `#total-likes` element. */
  predicate HasTally(page: Counters) {
    page.badge.Some? && page.badge.value.tally.Some?
  }

  /** The header installs the template's badge only when the page has none. */
  function InstallPriceBadge(page: Counters, p: Photographer): (r: Counters)
    ensures r.badge == Some(GetPriceBadge(page.badge, p))
    ensures r.fallback == page.fallback
    ensures page.badge.Some? ==> r == page
    ensures page.badge.None? ==> HasTally(r)
  {
    page.(badge := Some(GetPriceBadge(page.badge, p)))
  }

  /**
   * Recomputes the total from the cards. With a `#total-likes` element, the
   * total goes into its `.total-count` child when there is one and into its
   * label in any case, and the fallback counter is left alone; without one,
   * it goes into the fallback counter when there is one. The total is also
   * returned.
   */
  function UpdateTotalLikes(cards: seq<MediaCard.Card>, page: Counters): (r: (int, Counters))
    ensures r.0 == TotalLikes(DataLikes(cards))
    ensures HasTally(page) ==>
      var t := page.badge.value.tally.value;
      && HasTally(r.1) && r.1.fallback == page.fallback
      && r.1.badge.value.(tally := Some(t)) == page.badge.value
      && r.1.badge.value.tally.value.announced == Some(r.0)
      && (t.count.Some? ==> r.1.badge.value.tally.value.count == Some(r.0))
      && (t.count.None? ==> r.1.badge.value.tally.value.count == None)
    ensures !HasTally(page) ==>
      && r.1.badge == page.badge
      && (page.fallback.Some? ==> r.1.fallback == Some(r.0))
      && (page.fallback.None? ==> r.1 == page)
  {
    var total := TotalLikes(DataLikes(cards));
    if HasTally(page) then
      var b := page.badge.value;
      var t := b.tally.value;
      var count := if t.count.Some? then Some(total) else None;
      (total, page.(badge := Some(b.(tally := Some(Tally(count, Some(total)))))))
    else if page.fallback.Some? then
      (total, page.(fallback := Some(total)))
    else
      (total, page)
  }

  /** After installing the badge, updating shows the page total on the badge. */
  lemma InstalledBadgeShowsTotal(cards: seq<MediaCard.Card>, p: Photographer)
    ensures var page := InstallPriceBadge(Counters(None, None), p);
            UpdateTotalLikes(cards, page).1.badge.value.tally.value.count == Some(TotalLikes(DataLikes(cards)))
  {
  }

  /**
   * A `#total-likes` element without a `.total-count` child shows no number
   * anywhere: the fallback counter keeps its stale value.
   */
  lemma TallyWithoutCountHidesTotal(cards: seq<MediaCard.Card>, p: Photographer, stale: int)
    ensures var page := Counters(Some(Badge(p.price, p.name, Some(Tally(None, None)))), Some(stale));
            var r := UpdateTotalLikes(cards, page).1;
            r.badge.value.tally.value.count == None && r.fallback == Some(stale)
  {
  }
}

=== FILE: photographer_page.dfy ===
/**
 * The photographer page: selecting the photographer and their media from
 * the catalog, rendering the media grid in a chosen order, and handing the
 * media list to the lightbox.
 */
module PhotographerPage {
  import opened Wrappers
  import opened Catalog
  import opened Ordering
  import Lightbox
  import MediaCard

  /** The first photographer with id `id`, if any. */
  function FindPhotographer(ps: seq<Photographer>, id: int): (r: Option<Photographer>)
    ensures r.Some? ==> exists i | 0 <= i < |ps| :: ps[i] == r.value
                          && (forall j | 0 <= j < i :: ps[j].id != id)
    ensures r.Some? ==> r.value.id == id
    ensures r.None? <==> forall j | 0 <= j < |ps| :: ps[j].id != id
  {
    if |ps| == 0 then None
    else if ps[0].id == id then Some(ps[0])
    else
      var r := FindPhotographer(ps[1..], id);
      assert r.Some? ==> exists i | 0 <= i < |ps[1..]| :: ps[1..][i] == r.value
                          && (forall j | 0 <= j < i :: ps[1..][j].id != id);
      assert r.Some? ==> exists i | 0 <= i < |ps| :: ps[i] == r.value
                          && (forall j | 0 <= j < i :: ps[j].id != id) by {
        if r.Some? {
          var i :| 0 <= i < |ps[1..]| && ps[1..][i] == r.value
                   && (forall j | 0 <= j < i :: ps[1..][j].id != id);
          assert ps[i + 1] == r.value;
          assert forall j | 0 <= j < i + 1 :: ps[j].id != id by {
            forall j | 0 <= j < i + 1 ensures ps[j].id != id {
              if j > 0 { assert ps[j] == ps[1..][j - 1]; }
            }
          }
        }
      }
      r
  }

  /** The media of photographer `pid`, in catalog order. */
  function MediaOf(media: seq<Media>, pid: int): (r: seq<Media>)
    ensures forall i | 0 <= i < |r| :: r[i].photographerId == pid
    ensures |r| <= |media|
  {
    if |media| == 0 then []
    else (if media[0].photographerId == pid then [media[0]] else []) + MediaOf(media[1..], pid)
  }

  /** The filter keeps exactly the catalog's media of photographer `pid`. */
  lemma {:induction false} MediaOfMembers(media: seq<Media>, pid: int, m: Media)
    ensures m in MediaOf(media, pid) <==> m in media && m.photographerId == pid
  {
    if |media| > 0 {
      MediaOfMembers(media[1..], pid, m);
      assert media == [media[0]] + media[1..];
    }
  }

  /** Filtering a catalog split in two filters each part in place. */
  lemma {:induction false} MediaOfAppend(a: seq<Media>, b: seq<Media>, pid: int)
    ensures MediaOf(a + b, pid) == MediaOf(a, pid) + MediaOf(b, pid)
  {
    if |a| > 0 {
      var head := if a[0].photographerId == pid then [a[0]] else [];
      var ab := a + b;
      assert ab[0] == a[0];
      assert ab[1..] == a[1..] + b;
      MediaOfAppend(a[1..], b, pid);
      assert MediaOf(ab, pid) == head + MediaOf(a[1..] + b, pid);
      assert MediaOf(a, pid) == head + MediaOf(a[1..], pid);
    } else {
      assert a + b == b;
    }
  }

  datatype PageError = NoPhotographerSpecified | PhotographerNotFound

  /**
   * The page's start-up lookup. `idParam` is the id read from the address
   * (`None` when missing or not a number); 0 counts as missing, as any falsy
   * id does.
   */
  function Select(idParam: Option<int>, ps: seq<Photographer>, media: seq<Media>)
    : (r: Result<(Photographer, seq<Media>), PageError>)
    ensures idParam.None? || idParam == Some(0) <==> r == Failure(NoPhotographerSpecified)
    ensures r == Failure(PhotographerNotFound) <==>
      idParam.Some? && idParam.value != 0 && forall j | 0 <= j < |ps| :: ps[j].id != idParam.value
    ensures r.Success? ==>
      && r.value.0.id == idParam.value && r.value.0 in ps
      && r.value.1 == MediaOf(media, idParam.value)
    ensures r.Success? ==> FindPhotographer(ps, idParam.value) == Some(r.value.0)
  {
    if idParam.None? || idParam.value == 0 then Failure(NoPhotographerSpecified)
    else
      match FindPhotographer(ps, idParam.value)
      case None => Failure(PhotographerNotFound)
      case Some(p) => Success((p, MediaOf(media, idParam.value)))
  }

  /**
   * The page: `current` is the page's copy of the photographer's media,
   * `grid` the cards in display order, `lightbox` the lightbox state.
   */
  datatype Page = Page(current: seq<Media>, name: string, grid: seq<Media>, lightbox: Lightbox.State)

  /**
   * First render, as the page does it: the lightbox receives the list as
   * selected, while the grid shows it in popularity order.
   */
  function DisplayMedia(media: seq<Media>, name: string, lb: Lightbox.State): (p: Page)
    ensures p.current == media && p.name == name
    ensures p.lightbox == Lightbox.Initialize(lb, media)
    ensures Sorted(Popularity, p.grid) && multiset(p.grid) == multiset(media)
  {
    Page(media, name, Sort(Popularity, media), Lightbox.Initialize(lb, media))
  }

  /**
   * On first render the lightbox order can disagree with the grid: with two
   * cards, a trusted click on the first card of the grid lands on the
   * lightbox's last position, so its next button is disabled although the
   * grid continues.
   */
  lemma FirstRenderNextDisabledMidGrid()
    ensures var a := Media(1, 7, "b", "a.jpg", "", 3, 0);
            var b := Media(2, 7, "a", "b.jpg", "", 5, 0);
            var p := DisplayMedia([a, b], "n", Lightbox.Initial);
            var shown := MediaCard.CardClick(p.lightbox, p.grid[0], "n", 0, true, false);
            && p.grid == [b, a]
            && shown.open && shown.frame.Some? && shown.frame.value.nextDisabled
            && Lightbox.Next(shown, "n") == shown
  {
    var a := Media(1, 7, "b", "a.jpg", "", 3, 0);
    var b := Media(2, 7, "a", "b.jpg", "", 5, 0);
    assert [a, b][1..] == [b];
    assert Sort(Popularity, [b]) == [b];
    assert Sort(Popularity, [a, b]) == [b, a];
    assert Lightbox.FindIndex([a, b], 2) == 1 by {
      assert [a, b][1..][0].id == 2;
    }
  }

  /** First render with the lightbox given the grid's own order. */
  function DisplayMediaAligned(media: seq<Media>, name: string, lb: Lightbox.State): (p: Page)
    ensures p.current == media && p.name == name
    ensures Sorted(Popularity, p.grid) && multiset(p.grid) == multiset(media)
    ensures p.lightbox.items == p.grid
  {
    var sorted := Sort(Popularity, media);
    Page(media, name, sorted, Lightbox.Initialize(lb, sorted))
  }

  /**
   * When the lightbox holds the grid's order, opening card `k` shows it, and
   * next shows card `k + 1`, for catalogs with unique ids.
   */
  lemma AlignedNextFollowsGrid(media: seq<Media>, name: string, lb: Lightbox.State, k: nat, now: int)
    requires UniqueIds(media)
    requires k + 1 < |media|
    ensures var p := DisplayMediaAligned(media, name, lb);
            var shown := Lightbox.Open(p.lightbox, p.grid[k].id, name, now, true);
            && shown.open && shown.index == k
            && Lightbox.Next(shown, name).index == k + 1
            && p.grid[Lightbox.Next(shown, name).index] == p.grid[k + 1]
  {
    var p := DisplayMediaAligned(media, name, lb);
    SortKeepsUniqueIds(Popularity, media);
    assert |p.grid| == |media| by {
      assert |multiset(p.grid)| == |multiset(media)|;
    }
    var i := Lightbox.FindIndex(p.grid, p.grid[k].id);
    assert i == k;
  }

  /**
   * A change of the sort selector: the grid is rebuilt from a sorted copy of
   * `current` and the lightbox receives that same order. An empty page only
   * shows its empty message.
   */
  function RenderSorted(p: Page, sortBy: string): (r: Page)
    ensures r.current == p.current && r.name == p.name
    ensures Sorted(ParseSortKey(sortBy), r.grid) && multiset(r.grid) == multiset(p.current)
    ensures |p.current| > 0 ==> r.lightbox.items == r.grid
    ensures |p.current| == 0 ==> r.lightbox == p.lightbox
    ensures r.lightbox.(items := p.lightbox.items) == p.lightbox
  {
    if |p.current| == 0 then p.(grid := [])
    else
      var sorted := Sort(ParseSortKey(sortBy), p.current);
      p.(grid := sorted, lightbox := Lightbox.Initialize(p.lightbox, sorted))
  }

  /**
   * A re-sort keeps a shown lightbox's index inside the new list, but the
   * index is not remapped and the displayed frame is not refreshed.
   */
  lemma ResortKeepsLightboxIndex(p: Page, sortBy: string)
    requires Lightbox.Valid(p.lightbox) && |p.lightbox.items| == |p.current|
    ensures var r := RenderSorted(p, sortBy).lightbox;
            && r.open == p.lightbox.open && r.index == p.lightbox.index && r.frame == p.lightbox.frame
            && (r.open ==> 0 <= r.index < |r.items| && r.frame.Some? && r.frame.value.at == r.index)
  {
    var r := RenderSorted(p, sortBy);
    assert |r.grid| == |p.current| by {
      assert |multiset(r.grid)| == |multiset(p.current)|;
    }
  }
}

=== FILE: text.dfy ===
/**
 * String helpers with the semantics the gallery relies on: a total
 * three-way comparison for titles, ECMAScript white space (the set that
 * both `String.prototype.trim` and the regular-expression class `\s` use),
 * trimming, and the UTF-16 length that `String.prototype.length` reports.
 */
module Text {

  /**
   * Three-way comparison of two strings, code point by code point, a
   * proper prefix ordering first. Stands in for `localeCompare`: only its
   * sign is ever used.
   */
  function Compare(a: string, b: string): (r: int)
    ensures -1 <= r <= 1
    ensures r == 0 <==> a == b
  {
    if |a| == 0 || |b| == 0 then
      (if |a| == |b| then 0 else if |a| == 0 then -1 else 1)
    else if a[0] < b[0] then -1
    else if b[0] < a[0] then 1
    else
      var r := Compare(a[1..], b[1..]);
      assert a == [a[0]] + a[1..] && b == [b[0]] + b[1..];
      r
  }

  /** Swapping the arguments negates the comparison. */
  lemma {:induction false} CompareFlip(a: string, b: string)
    ensures Compare(b, a) == -Compare(a, b)
  {
    if |a| > 0 && |b| > 0 && a[0] == b[0] {
      CompareFlip(a[1..], b[1..]);
    }
  }

  /** "Not after" is transitive, so the comparison is a total order. */
  lemma {:induction false} CompareTransitive(a: string, b: string, c: string)
    requires Compare(a, b) <= 0 && Compare(b, c) <= 0
    ensures Compare(a, c) <= 0
  {
    if |a| > 0 && |b| > 0 && |c| > 0 && a[0] == b[0] && b[0] == c[0] {
      CompareTransitive(a[1..], b[1..], c[1..]);
    }
  }

  /**
   * ECMAScript WhiteSpace and LineTerminator code points: TAB, LF, VT, FF,
   * CR, SPACE, NBSP, U+1680, U+2000..U+200A, LS, PS, U+202F, U+205F,
   * U+3000 and the byte-order mark U+FEFF.
   */
  const SpaceCodes: set<int> := {
    0x09, 0x0A, 0x0B, 0x0C, 0x0D, 0x20, 0xA0, 0x1680,
    0x2000, 0x2001, 0x2002, 0x2003, 0x2004, 0x2005, 0x2006, 0x2007,
    0x2008, 0x2009, 0x200A, 0x2028, 0x2029, 0x202F, 0x205F, 0x3000, 0xFEFF
  }

  predicate IsSpace(c: char) {
    c as int in SpaceCodes
  }

  predicate AllSpace(s: string) {
    forall i | 0 <= i < |s| :: IsSpace(s[i])
  }

  /** The position of the first character of `s` that is not white space, or `|s|`. */
  function ContentStart(s: string): (i: nat)
    ensures i <= |s|
    ensures forall k | 0 <= k < i :: IsSpace(s[k])
    ensures i < |s| ==> !IsSpace(s[i])
  {
    if |s| == 0 || !IsSpace(s[0]) then 0
    else
      var i := ContentStart(s[1..]);
      assert forall k | 1 <= k < i + 1 :: s[k] == s[1..][k - 1];
      i + 1
  }

  /** The position just past the last character of `s` that is not white space, or 0. */
  function ContentEnd(s: string): (j: nat)
    ensures j <= |s|
    ensures forall k | j <= k < |s| :: IsSpace(s[k])
    ensures j > 0 ==> !IsSpace(s[j - 1])
  {
    if |s| == 0 || !IsSpace(s[|s| - 1]) then |s|
    else
      var j := ContentEnd(s[..|s| - 1]);
      assert forall k | j <= k < |s| - 1 :: s[k] == s[..|s| - 1][k];
      j
  }

  /**
   * `s` with white space removed from both ends: the window `s[i..i + n]`
   * outside which everything is white space and whose two ends are not.
   */
  predicate IsTrimWindow(s: string, i: nat, n: nat) {
    && i + n <= |s|
    && (forall k | 0 <= k < |s| && !(i <= k < i + n) :: IsSpace(s[k]))
    && (n > 0 ==> !IsSpace(s[i]) && !IsSpace(s[i + n - 1]))
  }

  /**
   * `String.prototype.trim`: the slice of `s` left once white space is
   * removed from both ends. It is empty exactly when `s` is all white space.
   */
  function Trim(s: string): (r: string)
    ensures IsTrimWindow(s, ContentStart(s), |r|)
    ensures r == s[ContentStart(s)..ContentStart(s) + |r|]
    ensures AllSpace(s) <==> |r| == 0
  {
    var i := ContentStart(s);
    var j := ContentEnd(s);
    if i < j then
      assert IsTrimWindow(s, i, j - i);
      s[i..j]
    else
      assert AllSpace(s);
      ""
  }

  /** The trimmed value has no white space at either end. */
  lemma TrimmedEndsAreContent(s: string)
    ensures var r := Trim(s); |r| > 0 ==> !IsSpace(r[0]) && !IsSpace(r[|r| - 1])
  {
    var r := Trim(s);
    var i := ContentStart(s);
    if |r| > 0 {
      assert r[0] == s[i] && r[|r| - 1] == s[i + |r| - 1];
    }
  }

  /** A string has exactly one trim window: the one `Trim` returns. */
  lemma TrimWindowUnique(s: string, i: nat, n: nat)
    requires IsTrimWindow(s, i, n)
    ensures Trim(s) == s[i..i + n]
  {
    if n > 0 {
      assert ContentStart(s) == i;
      assert ContentEnd(s) == i + n;
    } else {
      assert AllSpace(s);
    }
  }

  /** A trim window of `s` stays one, shifted, once `s` is padded with white space. */
  lemma PaddedWindow(left: string, s: string, right: string, i: nat, n: nat)
    requires AllSpace(left) && AllSpace(right)
    requires IsTrimWindow(s, i, n)
    ensures IsTrimWindow(left + s + right, |left| + i, n)
  {
    var u := left + s + right;
    var p := |left|;
    forall k | 0 <= k < |u| && !(p + i <= k < p + i + n)
      ensures IsSpace(u[k])
    {
      if k < p {
        assert u[k] == left[k];
      } else if k < p + |s| {
        assert u[k] == s[k - p];
      } else {
        assert u[k] == right[k - p - |s|];
      }
    }
    if n > 0 {
      assert u[p + i] == s[i];
      assert u[p + i + n - 1] == s[i + n - 1];
    }
  }

  /** Surrounding white space never changes the trimmed value. */
  lemma TrimIgnoresPadding(left: string, s: string, right: string)
    requires AllSpace(left) && AllSpace(right)
    ensures Trim(left + s + right) == Trim(s)
  {
    var i := ContentStart(s);
    var r := Trim(s);
    var u := left + s + right;
    PaddedWindow(left, s, right, i, |r|);
    TrimWindowUnique(u, |left| + i, |r|);
    SliceOfMiddle(left, s, right, i, |r|);
  }

  /** A slice of the middle part of a concatenation is a slice of that part. */
  lemma SliceOfMiddle<T>(a: seq<T>, b: seq<T>, c: seq<T>, i: nat, n: nat)
    requires i + n <= |b|
    ensures (a + b + c)[|a| + i..|a| + i + n] == b[i..i + n]
  {
    var u := a + b + c;
    var x, y := u[|a| + i..|a| + i + n], b[i..i + n];
    forall k | 0 <= k < n ensures x[k] == y[k] {
      assert u[|a| + i + k] == b[i + k];
    }
    assert x == y;
  }

  /**
   * The number of UTF-16 code units of `s`, which is what JavaScript's
   * `length` counts: code points above U+FFFF take two.
   */
  function Utf16Length(s: string): (n: nat)
    ensures |s| <= n <= 2 * |s|
    ensures |s| == 1 ==> n == (if s[0] as int >= 0x1_0000 then 2 else 1)
    ensures n == |s| <==> forall i | 0 <= i < |s| :: s[i] as int < 0x1_0000
  {
    if |s| == 0 then 0
    else
      var rest := Utf16Length(s[1..]);
      assert forall i | 1 <= i < |s| :: s[i] == s[1..][i - 1];
      (if s[0] as int >= 0x1_0000 then 2 else 1) + rest
  }

  /** Code units add up over concatenation, so the count is fixed by the one-character values. */
  lemma {:induction false} Utf16LengthAppend(a: string, b: string)
    ensures Utf16Length(a + b) == Utf16Length(a) + Utf16Length(b)
  {
    if |a| > 0 {
      assert (a + b)[0] == a[0];
      assert (a + b)[1..] == a[1..] + b;
      Utf16LengthAppend(a[1..], b);
    } else {
      assert a + b == b;
    }
  }
}

=== FILE: wrappers.dfy ===
/** Optional values and results used across the gallery model. */
module Wrappers {

  /** A value that may be absent: a missing storage key, an unmatched lookup. */
  datatype Option<+T> = None | Some(value: T) {

    /** The wrapped value, or `default` when absent. */
    function GetOr(default: T): T {
      match this
      case Some(v) => v
      case None => default
    }
  }

  /** The outcome of a step that can fail with an error of type `E`. */
  datatype Result<+R, +E> = Success(value: R) | Failure(error: E)
}
